=== FILE: README.md ===
# Telemetry layer of guardrails, modelled in Dafny

This project models the conditional instrumentation layer of guardrails
(`guardrails/utils/telemetry_utils.py`). That layer labels each validator's
result, turns validator execution records into span events, and wraps callables
in trace spans. When no usable tracer is configured, it does nothing.

The model is functional. Tracers, spans and contexts are opaque handles. Two
pieces of process-wide state are passed in explicitly as an `Env` value: what
guardrails stores and what the OpenTelemetry runtime reports. Everything the
layer does to a span is recorded as an append-only log of `Action`s (add event,
set attribute, set status). A callee is a total function from its call
arguments to `Result<R, Exc>`, so a raise is a value. A decorated call yields
`Traced(outcome, span)`: what the caller sees, plus the span opened around the
call, if any.

Files:

- `wrappers.dfy` (`Wrappers`): `Option` and `Result`.
- `text.dfy` (`Text`): ASCII `str.lower` and `str` of an int.
- `model.dfy` (`Model`): the datatypes: values and sentinels, validator records, span actions, tracers, contexts, the environment, exceptions, traced calls.
- `classifier.dfy` (`Classifier`): `get_result_type`.
- `resolvers.dfy` (`Resolvers`): `get_tracer`, `get_current_context`, `get_span`, `get_error_code`.
- `events.dfy` (`Events`): `trace_validator_result`, `trace_validation_result`.
- `decorators.dfy` (`Decorators`): `trace_validator`, `trace`, `async_trace`.

The model follows these details of the code:

- A `ReAsk` after-value is labelled with the lower-cased name of its runtime class (`__class__.__name__`). A `FieldReAsk` gives "fieldreask", not "reask".
- The ambient context is preferred only when it is truthy. The OpenTelemetry context is a mapping, so an empty one falls through to the stored context, even when the stored one is `None`.
- The wrappers catch only `Exception`. A `BaseException` that is not an `Exception` (`KeyboardInterrupt`, `asyncio.CancelledError`) gets no error status and is re-raised unchanged.
- When OpenTelemetry is missing, `get_current_context` raises `NameError` instead of falling through. See Findings.
- A keyword extra named `attempt_number`, `current_span` or `validator_log` binds to the parameter of that name, so it cannot reach `**kwargs`. An extra therefore never overrides the attempt number.
- A span that the backend returns without `add_event` makes `trace_validation_result` raise `AttributeError` at its first record.

## Model

| member | source | states |
|---|---|---|
| Classifier.ResultType | guardrails/utils/telemetry_utils.py:23-31 | a sentinel after-value's label is its class name lower-cased character by character; for an ordinary after-value the label is "fix" exactly when the value changed or the outcome is itself "fix", and the outcome when it is unchanged |
| Classifier.SentinelLabels | guardrails/utils/telemetry_utils.py:25-26 | Filter, Refrain and ReAsk after-values are labelled "filter", "refrain", "reask", for every before-value and outcome |
| Classifier.ReAskSubclassLabel | guardrails/utils/telemetry_utils.py:25-26 | a ReAsk subclass is labelled with its own lower-cased class name ("fieldreask") |
| Classifier.SentinelLabelIgnoresOutcome | guardrails/utils/telemetry_utils.py:25-26 | a sentinel's label does not depend on the outcome or the before-value, and contains no upper-case letter |
| Classifier.ChangedValueIsFix | guardrails/utils/telemetry_utils.py:27-28 | an ordinary after-value that differs from the before-value is labelled "fix" |
| Classifier.OutcomePassesThroughIffUnchanged | guardrails/utils/telemetry_utils.py:27-30 | for an ordinary after-value and an outcome other than "fix", the label is the outcome if and only if the value is unchanged |
| Classifier.UnchangedValueKeepsOutcome | guardrails/utils/telemetry_utils.py:29-30 | an unchanged ordinary value keeps the outcome as its label, for every outcome |
| Classifier.LabelIsOneOfThree | guardrails/utils/telemetry_utils.py:23-31 | every label is a lower-cased sentinel class name, "fix", or the outcome |
| Text.Lower | guardrails/utils/telemetry_utils.py:26 | lower-casing keeps the length and lower-cases each character in place |
| Text.NatToString | guardrails/utils/telemetry_utils.py:184 | `str` of the instance id: non-empty decimal digits that read back as the number, with no leading zero except for 0 itself |
| Text.IntToString | guardrails/utils/telemetry_utils.py:184 | `str` of an int: decimal digits for a non-negative number, a minus sign followed by digits for a negative one, with no leading zero except for 0 itself; reading the text back as an int gives the number |
| Resolvers.GetTracer | guardrails/utils/telemetry_utils.py:46-49 | an explicit tracer is returned unchanged; otherwise the stored tracer, which may be absent |
| Resolvers.Or | guardrails/utils/telemetry_utils.py:59 | Python's `or` on contexts: the first one when it is truthy (present and non-empty), otherwise the second one, even when that is absent or empty |
| Resolvers.ResolveContextAsWritten | guardrails/utils/telemetry_utils.py:52-59 | the code as written: raises NameError exactly when OpenTelemetry is missing; otherwise returns the ambient context when it is non-empty and the stored context when it is not |
| Resolvers.ResolveContext | guardrails/utils/telemetry_utils.py:52-59 | the intended resolver: never fails; returns the ambient context when the backend is present and the context is non-empty, and the stored fallback otherwise |
| Resolvers.ResolveContextCorrectsOnlyTheRaise | guardrails/utils/telemetry_utils.py:52-59 | the corrected resolver agrees with the code wherever the code returns; where the code raises, it returns the stored context |
| Resolvers.ContextLookupRaisesWithoutBackend | guardrails/utils/telemetry_utils.py:53-57 | a concrete environment (no backend, a stored context) on which the code raises NameError and the intended resolver returns the stored context |
| Resolvers.GetSpan | guardrails/utils/telemetry_utils.py:62-73 | an explicit span with `add_event` is returned unchanged; otherwise the backend's current span under the resolved context, even one without `add_event`; the result is None exactly when the backend is missing or the lookup raises an Exception; a BaseException from the lookup escapes unchanged |
| Resolvers.LookupFailureYieldsNone | guardrails/utils/telemetry_utils.py:65-73 | without a usable explicit span, a missing backend and a span lookup raising an Exception both yield None |
| Resolvers.BaseExceptionEscapesLookup | guardrails/utils/telemetry_utils.py:65-73 | a BaseException that is not an Exception, raised by the backend's lookup, reaches the caller of `get_span` unchanged |
| Resolvers.ExplicitSpanIgnoresEnvironment | guardrails/utils/telemetry_utils.py:63-64 | with an explicit span that has `add_event`, the process-wide state has no influence on the result |
| Resolvers.GetErrorCode | guardrails/utils/telemetry_utils.py:36-43 | the backend's ERROR status when it can be imported, the literal 2 otherwise; both stand for error code 2 |
| Events.OutcomeLabel | guardrails/utils/telemetry_utils.py:98-103 | the result's outcome when it has one that is not None, and "unknown" otherwise (no outcome attribute, or a None outcome) |
| Events.DropNone | guardrails/utils/telemetry_utils.py:122 | keeps exactly the entries whose value is not None, with their values unchanged |
| Events.BuiltinFields | guardrails/utils/telemetry_utils.py:108-117 | the body holds exactly the nine built-in keys: validator name, attempt number, outcome label, its result type, `to_string` of the before- and after-values, the ISO start and end times and the instance id; a value that is unset (or whose `to_string` failed) is None |
| Events.MergeExtras | guardrails/utils/telemetry_utils.py:108-122 | an extra overrides a built-in key of the same name (`validator_name`, `result`, `input` and the rest; `attempt_number` cannot be an extra); an extra set to None removes the key; a built-in key survives exactly when it is not overridden and not None; no value is None |
| Events.TraceValidatorResult | guardrails/utils/telemetry_utils.py:76-123 | for the extras Python can bind to `**kwargs` (none named after a parameter): one add_event named "<registered_name>_result"; the attempt number is always there; the body holds no None value, only built-in and extra keys, and every non-None extra with its value |
| Events.EventBuiltinFields | guardrails/utils/telemetry_utils.py:98-119 | where no extra overrides a key: validator name, outcome-or-"unknown" and result type are present; start/end time (ISO text), instance id, input and output (`to_string` text) are present exactly when set, with those values |
| Events.TraceValidationResult | guardrails/utils/telemetry_utils.py:128-148 | the span is resolved once; a BaseException escaping the lookup is raised with no event; with no span, no event is emitted and nothing is raised; with a span that has `add_event`, one event per record, in input order, with no extras, and nothing for nested groups; with one that lacks it, nothing is emitted, and AttributeError is raised exactly when there is a record |
| Events.EmitAll | guardrails/utils/telemetry_utils.py:137-140 | the loop emits exactly one action per record, the i-th for the i-th record |
| Events.AggregatedEventsFollowRecords | guardrails/utils/telemetry_utils.py:137-140 | each aggregated event is an add_event named after its own record, carries a result key, and holds no None value |
| Events.LengthCheckScenario | guardrails/utils/telemetry_utils.py:108-123 | "length_check" passing "abc" unchanged on attempt 1 gives event "length_check_result" with result and result type "pass", attempt 1, and no timestamp keys |
| Events.LengthCheckFixScenario | guardrails/utils/telemetry_utils.py:104-112 | the same record with a changed after-value gets result type "fix" |
| Decorators.StatusOnFailure | guardrails/utils/telemetry_utils.py:191-195 | exactly one error status with `str(e)` when the callee raised an Exception, and none otherwise (a BaseException gets none) |
| Decorators.RunInSpan | guardrails/utils/telemetry_utils.py:173-195 | the span is opened with the given name under the resolved context; the callee's return or raise comes back unchanged; the set attributes come first, and one error status with str(e) follows exactly when an Exception was raised |
| Decorators.ValidatorAttributes | guardrails/utils/telemetry_utils.py:177-188 | sets on_fail_descriptor and args to their rendered text and instance_id to `str(obj_id)`, text that reads back as `obj_id`, and sets input (the stringified second positional argument) if and only if there are at least two positional arguments; each attribute is set exactly once, and nothing else is recorded |
| Decorators.DecorateValidator | guardrails/utils/telemetry_utils.py:160-204 | the tracer is resolved at decoration time; the traced closure is chosen exactly when that tracer is present and can start spans |
| Decorators.CallValidator | guardrails/utils/telemetry_utils.py:164-199 | the caller sees the callee's own return or raise; a span named "<validator_name>.validate" exists exactly for the traced closure and holds exactly the validator's attributes (on_fail_descriptor, args, instance_id, and input exactly when there is a second argument) followed by one error status when an Exception was raised and nothing else otherwise |
| Decorators.TraceValidator | guardrails/utils/telemetry_utils.py:151-206 | every call of the decorated function returns or raises what the callee does; a span is opened exactly when the decoration-time tracer was usable, whatever the tracer is at call time; with no usable tracer the wrapper is the callee with no span |
| Decorators.Trace | guardrails/utils/telemetry_utils.py:209-232 | the tracer is resolved on every call; with none usable, the call is the callee's with no span; with one, span `name` is opened under the resolved context and holds exactly one error status for a raised Exception and no action otherwise, and the callee's return or raise comes back unchanged |
| Decorators.AsyncTrace | guardrails/utils/telemetry_utils.py:235-259 | the awaited callee's outcome comes back unchanged; a span is opened exactly when the call-time tracer is usable, under the resolved context, and holds exactly one error status for a raised Exception and no action otherwise |
| Decorators.RunInSpanAsWritten | guardrails/utils/telemetry_utils.py:172-195 | as written: without the backend the context lookup raises NameError before any span opens and before the callee runs; with it, the span path of `RunInSpan` |
| Decorators.TraceAsWritten | guardrails/utils/telemetry_utils.py:209-232 | `trace` as written: the callee's own call without a usable tracer; NameError and no span with a usable tracer but no backend; `Trace` when the backend is present |
| Decorators.CallValidatorAsWritten | guardrails/utils/telemetry_utils.py:164-204 | `trace_validator`'s closure as written: the callee for the pass-through closure; NameError and no span for the traced one without the backend; `CallValidator` when the backend is present |
| Decorators.AsWrittenTraceRaisesWithoutBackend | guardrails/utils/telemetry_utils.py:213-221 | with a usable tracer and no backend, the corrected `trace` returns the callee's 42 in a span, while the code as written raises NameError with no span |
| Decorators.AsyncTraceAgreesWithTrace | guardrails/utils/telemetry_utils.py:235-259 | the asynchronous decorator behaves exactly as the synchronous one on every call |
| Decorators.DecidedOnceVersusPerCall | guardrails/utils/telemetry_utils.py:160-215 | with no tracer at decoration time and a usable one at call time, the validator wrapper opens no span while `trace` opens one |
| Decorators.TraceScenarios | guardrails/utils/telemetry_utils.py:209-232 | with no tracer, `trace("my.op")` around a callee returning 42 returns 42 and opens no span; a raising callee's exception comes back unchanged, and the span holds a single error status carrying its message |

## Left out

- The classifier's `except` branch, which returns `type(after_value)` (lines 32-33), is not modelled. Equality of model values is total, so this branch has no counterpart.
- The OpenTelemetry imports and `hasattr` probing are booleans: `Env.otel`, `Tracer.startsSpans` and `SpanHandle.addsEvents`. The `ImportError` stub `Span` class is an explicit span without `add_event`.
- The process-wide accessors (`get_context_tracer`, `get_tracer_context`, `context.get_current`, `trace.get_current_span`) are fields of `Env`. The guardrails context store is not part of this model.
- `to_string` and `datetime.isoformat` are parameters (`Formatters`). `to_string` may yield None; `isoformat` always yields text. The rendering of `init_kwargs` is the opaque `ValidatorConfig.initArgsText`. `str(e)` is the exception's `message`. `to_string` of the integer instance id is its decimal text.
- `async_trace`'s awaiting, suspension and cancellation are not modelled. The awaited call is represented by its settled outcome.
- The backend's own behaviour on the span is not part of this model. That covers closing the span when the `with` block exits, and recording the exception or setting a status on exit in `start_as_current_span`. Only the calls this layer makes are recorded.
- `set_attribute` with a None value is recorded as a call. The backend's handling of such a value (it drops it) is not modelled.
- `print` in `get_span`, `logging.debug` in `get_error_code`, and `functools.wraps` metadata copying have no counterpart.
- The event body is a map, so the order of keys in the Python dict is not modelled.
- Classifier.ResultType: compares values with structural equality, where the code uses the values' own `!=`. A value with its own `__ne__` can differ: with `float('nan')` before and after, Python gives "fix" and the model gives the outcome.
- Decorators.RunInSpan: uses the corrected context lookup. The code as written is `Decorators.RunInSpanAsWritten`, which raises NameError without the backend.
- Decorators.CallValidator: uses the corrected context lookup. The code as written is `Decorators.CallValidatorAsWritten`.
- Decorators.TraceValidator: built on `Decorators.CallValidator`, so it passes the callee's outcome through without the backend. The code as written raises NameError there (see `Decorators.CallValidatorAsWritten`).
- Decorators.Trace: uses the corrected context lookup. The code as written is `Decorators.TraceAsWritten`.
- Decorators.AsyncTrace: uses the corrected context lookup, like `Decorators.Trace`. Line 242 as written behaves as `Decorators.TraceAsWritten`.
- Text.Lower: lower-cases ASCII letters only, whereas `str.lower` also maps other Unicode letters. The class names it is applied to are ASCII identifiers.
- Events.TraceValidationResult: keeps every record, duplicates included, as the code does. De-duplication is not this layer's job.

## Findings

| source | as written | input that shows it | evidently intended | confidence | as-written member | corrected member |
|---|---|---|---|---|---|---|
| guardrails/utils/telemetry_utils.py:53-57 | `context is not None` reads the name `context`. The `ImportError` branch (lines 14-20) never binds that name, so without OpenTelemetry the lookup raises `NameError`. A `trace` or `trace_validator` wrapper with a usable non-OpenTelemetry tracer then raises before the callee runs. | OpenTelemetry not importable and a stored context present (`Resolvers.ContextLookupRaisesWithoutBackend`) | treat the missing backend as "no ambient context" and return the stored context | medium, not executed | Resolvers.ResolveContextAsWritten, Decorators.TraceAsWritten | Resolvers.ResolveContext, Decorators.Trace |

The span resolver and the decorators use the corrected `Resolvers.ResolveContext`. `Decorators.AsWrittenTraceRaisesWithoutBackend` shows the difference on one call.

=== FILE: classifier.dfy ===
/** `get_result_type`: the label a validator's result gets in its span event. */
module Classifier {
  import opened Model
  import opened Text

  /** A sentinel after-value is labelled with its lower-cased class name; otherwise
      a changed value is a "fix" and an unchanged one keeps the outcome label. */
  function ResultType<V(==)>(before: Value<V>, after: Value<V>, outcome: string): (name: string)
    ensures after.IsSentinel() ==>
      (|name| == |after.ClassName()| && forall i :: 0 <= i < |name| ==> name[i] == LowerChar(after.ClassName()[i]))
    ensures !after.IsSentinel() ==> (name == "fix" <==> after != before || outcome == "fix")
    ensures !after.IsSentinel() && after == before ==> name == outcome
  {
    if after.IsSentinel() then Lower(after.ClassName())
    else if after != before then "fix"
    else outcome
  }

  /** The three sentinel classes give "filter", "refrain" and "reask", whatever
      the before-value and outcome. */
  lemma SentinelLabels<V>(before: Value<V>, outcome: string)
    ensures ResultType(before, Filter, outcome) == "filter"
    ensures ResultType(before, Refrain, outcome) == "refrain"
    ensures ResultType(before, ReAsk("ReAsk"), outcome) == "reask"
  {
    LowerLiteral("Filter", "filter");
    LowerLiteral("Refrain", "refrain");
    LowerLiteral("ReAsk", "reask");
  }

  /** A ReAsk subclass is labelled with its own lower-cased name. */
  lemma ReAskSubclassLabel<V>(before: Value<V>, outcome: string)
    ensures ResultType(before, ReAsk("FieldReAsk"), outcome) == "fieldreask"
  {
    LowerLiteral("FieldReAsk", "fieldreask");
  }

  /** Lower-casing a literal, character by character. */
  lemma LowerLiteral(s: string, t: string)
    requires |s| == |t|
    requires forall i :: 0 <= i < |s| ==> LowerChar(s[i]) == t[i]
    ensures Lower(s) == t
  {
  }

  /** A sentinel's label is lower-case and ignores both the outcome and the
      before-value. */
  lemma SentinelLabelIgnoresOutcome<V>(b1: Value<V>, b2: Value<V>, after: Value<V>, o1: string, o2: string)
    requires after.IsSentinel()
    ensures ResultType(b1, after, o1) == ResultType(b2, after, o2)
    ensures forall i :: 0 <= i < |ResultType(b1, after, o1)| ==> !IsUpper(ResultType(b1, after, o1)[i])
  {
  }

  /** An ordinary after-value that differs from the before-value is a "fix". */
  lemma ChangedValueIsFix<V>(before: Value<V>, v: V, outcome: string)
    requires Plain(v) != before
    ensures ResultType(before, Plain(v), outcome) == "fix"
  {
  }

  /** For an ordinary after-value and any outcome other than "fix", the label is
      the outcome exactly when the value came through unchanged. */
  lemma OutcomePassesThroughIffUnchanged<V>(before: Value<V>, v: V, outcome: string)
    requires outcome != "fix"
    ensures ResultType(before, Plain(v), outcome) == outcome <==> Plain(v) == before
  {
  }

  /** An unchanged ordinary value keeps the outcome, whatever the outcome is. */
  lemma UnchangedValueKeepsOutcome<V>(v: V, outcome: string)
    ensures ResultType(Plain(v), Plain(v), outcome) == outcome
  {
  }

  /** Every label is a lower-cased sentinel name, "fix", or the outcome itself. */
  lemma LabelIsOneOfThree<V>(before: Value<V>, after: Value<V>, outcome: string)
    ensures (after.IsSentinel() && ResultType(before, after, outcome) == Lower(after.ClassName()))
         || ResultType(before, after, outcome) == "fix"
         || ResultType(before, after, outcome) == outcome
  {
  }
}

=== FILE: decorators.dfy ===
/** `trace_validator`, `trace` and `async_trace`: wrap a callee so that it runs
    inside a span when a usable tracer is found, and exactly as before otherwise.
    A callee is a function from its call arguments to a return or a raise; the
    wrapped call yields the same return or raise plus the span it opened, if any. */
module Decorators {
  import opened Wrappers
  import opened Model
  import opened Text
  import opened Resolvers
  import opened Events

  /** The arguments `trace_validator` is given besides the tracer:
      `initArgsText` is `to_string` of the stringified `init_kwargs`, whose
      rendering is outside the model. */
  datatype ValidatorConfig = ValidatorConfig(
    validatorName: string,
    objId: int,
    onFailDescriptor: Option<string>,
    initArgsText: Option<string>)

  /** Which closure applying `trace_validator`'s decorator returned. */
  datatype Wrapper = WithoutATrace | WithTrace(tracer: Tracer)

  /** The `except Exception` handler: one error status with `str(e)` when the
      callee raised an `Exception`, nothing otherwise. */
  function StatusOnFailure<R>(outcome: Result<R, Exc>, otel: bool): (r: seq<Action>)
    ensures StatusCount(r) == (if Caught(outcome) then 1 else 0)
    ensures |r| == StatusCount(r)
    ensures r != [] ==> Caught(outcome) && r[0] == SetStatus(GetErrorCode(otel), outcome.error.message)
  {
    if Caught(outcome) then [SetStatus(GetErrorCode(otel), outcome.error.message)] else []
  }

  /** Open a span named `name` under the resolved context, apply `attributes`,
      run the callee, record an error status if it raised an `Exception`, and hand
      back its return or raise unchanged (`raise e` re-raises the same object). */
  function RunInSpan<A, R>(tracer: Tracer, name: string, attributes: seq<Action>, fn: Call<A> -> Result<R, Exc>, env: Env, call: Call<A>): (t: Traced<R>)
    ensures t.outcome == fn(call)
    ensures t.span.Some?
    ensures t.span.value.tracer == tracer && t.span.value.name == name
    ensures t.span.value.parent == ResolveContext(env)
    ensures |t.span.value.actions| >= |attributes| && t.span.value.actions[..|attributes|] == attributes
    ensures StatusCount(t.span.value.actions) == StatusCount(attributes) + (if Caught(fn(call)) then 1 else 0)
    ensures Caught(fn(call)) ==> t.span.value.actions == attributes + [SetStatus(GetErrorCode(env.otel), fn(call).error.message)]
    ensures !Caught(fn(call)) ==> t.span.value.actions == attributes
  {
    var outcome := fn(call);
    var failure := StatusOnFailure(outcome, env.otel);
    StatusCountAppend(attributes, failure);
    Traced(outcome, Some(SpanRecord(tracer, name, ResolveContext(env), attributes + failure)))
  }

  /** The span attribute `key` is set somewhere in `actions`. */
  predicate SetsAttribute(actions: seq<Action>, key: string) {
    exists i :: 0 <= i < |actions| && actions[i].SetAttribute? && actions[i].key == key
  }

  /** Status actions after a list of attributes change nothing about which
      attributes the list sets. */
  lemma SetsAttributeIgnoresStatus(attrs: seq<Action>, statuses: seq<Action>, key: string)
    requires forall i :: 0 <= i < |statuses| ==> statuses[i].SetStatus?
    ensures SetsAttribute(attrs + statuses, key) <==> SetsAttribute(attrs, key)
  {
    if SetsAttribute(attrs + statuses, key) {
      var i :| 0 <= i < |attrs + statuses| && (attrs + statuses)[i].SetAttribute? && (attrs + statuses)[i].key == key;
      assert i < |attrs|;
      assert attrs[i] == (attrs + statuses)[i];
    }
    if SetsAttribute(attrs, key) {
      var i :| 0 <= i < |attrs| && attrs[i].SetAttribute? && attrs[i].key == key;
      assert (attrs + statuses)[i] == attrs[i];
    }
  }

  /** The attributes `trace_validator` sets before running the validator, with
      the instance id's text given: the on-fail descriptor, the init arguments,
      the instance id, and the validated value (the second positional argument)
      only when there is one. */
  function AttributesWithId<A>(cfg: ValidatorConfig, idText: string, render: A -> Option<string>, call: Call<A>): (attrs: seq<Action>)
    ensures |attrs| == if |call.args| > 1 then 4 else 3
    ensures forall i :: 0 <= i < |attrs| ==> attrs[i].SetAttribute?
    ensures StatusCount(attrs) == 0
    ensures SetsAttribute(attrs, "on_fail_descriptor") && SetsAttribute(attrs, "args") && SetsAttribute(attrs, "instance_id")
    ensures SetAttribute("on_fail_descriptor", OptStr(cfg.onFailDescriptor)) in attrs
    ensures SetAttribute("args", OptStr(cfg.initArgsText)) in attrs
    ensures SetAttribute("instance_id", Str(idText)) in attrs
    ensures SetsAttribute(attrs, "input") <==> |call.args| > 1
    ensures |call.args| > 1 ==> SetAttribute("input", OptStr(render(call.args[1]))) in attrs
  {
    var fixed := [
      SetAttribute("on_fail_descriptor", OptStr(cfg.onFailDescriptor)),
      SetAttribute("args", OptStr(cfg.initArgsText)),
      SetAttribute("instance_id", Str(idText))
    ];
    var attrs := fixed + (if |call.args| > 1 then [SetAttribute("input", OptStr(render(call.args[1])))] else []);
    assert attrs[0] == fixed[0] && attrs[1] == fixed[1] && attrs[2] == fixed[2];
    assert |call.args| > 1 ==> attrs[3].key == "input";
    assert |call.args| <= 1 ==> forall i :: 0 <= i < |attrs| ==> attrs[i].key != "input";
    StatusCountNone(attrs);
    attrs
  }

  /** The attributes `trace_validator` sets, each exactly once, with
      `str(obj_id)` as the instance id: text that reads back as `obj_id`. */
  function ValidatorAttributes<A>(cfg: ValidatorConfig, render: A -> Option<string>, call: Call<A>): (attrs: seq<Action>)
    ensures |attrs| == if |call.args| > 1 then 4 else 3
    ensures forall i :: 0 <= i < |attrs| ==> attrs[i].SetAttribute?
    ensures StatusCount(attrs) == 0
    ensures SetsAttribute(attrs, "on_fail_descriptor") && SetsAttribute(attrs, "args") && SetsAttribute(attrs, "instance_id")
    ensures SetAttribute("on_fail_descriptor", OptStr(cfg.onFailDescriptor)) in attrs
    ensures SetAttribute("args", OptStr(cfg.initArgsText)) in attrs
    ensures SetAttribute("instance_id", Str(IntToString(cfg.objId))) in attrs
    ensures SetsAttribute(attrs, "input") <==> |call.args| > 1
    ensures |call.args| > 1 ==> SetAttribute("input", OptStr(render(call.args[1]))) in attrs
  {
    AttributesWithId(cfg, IntToString(cfg.objId), render, call)
  }

  /** Applying `trace_validator`'s decorator: the tracer is resolved once, here,
      and the traced closure is chosen exactly when it can open spans. */
  function DecorateValidator(explicit: Option<Tracer>, contextTracer: Option<Tracer>): (w: Wrapper)
    ensures w.WithTrace? <==> Usable(GetTracer(explicit, contextTracer))
    ensures w.WithTrace? ==> GetTracer(explicit, contextTracer) == Some(w.tracer)
  {
    var tracer := GetTracer(explicit, contextTracer);
    if Usable(tracer) then WithTrace(tracer.value) else WithoutATrace
  }

  /** One call of the closure `trace_validator` returned. `without_a_trace` is the
      callee itself; `with_trace` opens "<validator_name>.validate", sets the
      validator's attributes, and reports a raised `Exception` by exactly one error
      status before re-raising it. Either way the caller sees the callee's own
      return or raise. */
  function CallValidator<A, R>(cfg: ValidatorConfig, w: Wrapper, render: A -> Option<string>, fn: Call<A> -> Result<R, Exc>, env: Env, call: Call<A>): (t: Traced<R>)
    ensures t.outcome == fn(call)
    ensures t.span.Some? <==> w.WithTrace?
    ensures w.WithTrace? ==> t.span.value.tracer == w.tracer && t.span.value.name == cfg.validatorName + ".validate"
    ensures w.WithTrace? ==> t.span.value.parent == ResolveContext(env)
    ensures w.WithTrace? ==> StatusCount(t.span.value.actions) == (if Caught(fn(call)) then 1 else 0)
    ensures w.WithTrace? && Caught(fn(call)) ==> t.span.value.actions[|t.span.value.actions| - 1] == SetStatus(GetErrorCode(env.otel), fn(call).error.message)
    ensures w.WithTrace? ==> (SetsAttribute(t.span.value.actions, "input") <==> |call.args| > 1)
    ensures w.WithTrace? ==> t.span.value.actions == ValidatorAttributes(cfg, render, call) + StatusOnFailure(fn(call), env.otel)
  {
    match w
    case WithoutATrace => Traced(fn(call), None)
    case WithTrace(tracer) =>
      var attrs := ValidatorAttributes(cfg, render, call);
      var failure := StatusOnFailure(fn(call), env.otel);
      var t := RunInSpan(tracer, cfg.validatorName + ".validate", attrs, fn, env, call);
      assert t.span.value.actions == attrs + failure;
      SetsAttributeIgnoresStatus(attrs, failure, "input");
      t
  }

  /** `trace_validator(...)(fn)`: the closure chosen with the tracer found at
      decoration time (`decorationTracer` is the stored tracer at that moment).
      Every later call returns or raises what `fn` does, and opens a span exactly
      when that early tracer was usable, whatever the tracer is by then. */
  function TraceValidator<A(!new), R>(cfg: ValidatorConfig, explicit: Option<Tracer>, decorationTracer: Option<Tracer>, render: A -> Option<string>, fn: Call<A> -> Result<R, Exc>): (wrapped: (Env, Call<A>) -> Traced<R>)
    ensures forall env, call :: wrapped(env, call).outcome == fn(call)
    ensures forall env, call :: wrapped(env, call).span.Some? <==> Usable(GetTracer(explicit, decorationTracer))
    ensures !Usable(GetTracer(explicit, decorationTracer)) ==> forall env, call :: wrapped(env, call) == Traced(fn(call), None)
  {
    var w := DecorateValidator(explicit, decorationTracer);
    (env: Env, call: Call<A>) => CallValidator(cfg, w, render, fn, env, call)
  }

  /** One call of `trace(name, tracer)(fn)`: the tracer is resolved on this call.
      Without a usable one the call is the callee's, with no span. With one, a
      span named `name` records exactly one error status when the callee raises an
      `Exception` and nothing else, and the callee's return or raise comes back. */
  function Trace<A, R>(name: string, explicit: Option<Tracer>, fn: Call<A> -> Result<R, Exc>, env: Env, call: Call<A>): (t: Traced<R>)
    ensures t.outcome == fn(call)
    ensures t.span.Some? <==> Usable(GetTracer(explicit, env.contextTracer))
    ensures t.span.None? ==> t == Traced(fn(call), None)
    ensures t.span.Some? ==> t.span.value.name == name && Some(t.span.value.tracer) == GetTracer(explicit, env.contextTracer)
    ensures t.span.Some? ==> StatusCount(t.span.value.actions) == (if Caught(fn(call)) then 1 else 0)
    ensures t.span.Some? && Caught(fn(call)) ==> t.span.value.actions == [SetStatus(GetErrorCode(env.otel), fn(call).error.message)]
    ensures t.span.Some? && !Caught(fn(call)) ==> t.span.value.actions == []
    ensures t.span.Some? ==> t.span.value.parent == ResolveContext(env)
  {
    var tracer := GetTracer(explicit, env.contextTracer);
    if Usable(tracer) then RunInSpan(tracer.value, name, [], fn, env, call)
    else Traced(fn(call), None)
  }

  /** One call of `async_trace(name, tracer)(fn)`, with the awaited callee's
      settled outcome standing for the awaited call. */
  function AsyncTrace<A, R>(name: string, explicit: Option<Tracer>, fn: Call<A> -> Result<R, Exc>, env: Env, call: Call<A>): (t: Traced<R>)
    ensures t.outcome == fn(call)
    ensures t.span.Some? <==> Usable(GetTracer(explicit, env.contextTracer))
    ensures t.span.Some? ==> t.span.value.name == name && Some(t.span.value.tracer) == GetTracer(explicit, env.contextTracer)
    ensures t.span.Some? ==> t.span.value.parent == ResolveContext(env)
    ensures t.span.Some? && Caught(fn(call)) ==> t.span.value.actions == [SetStatus(GetErrorCode(env.otel), fn(call).error.message)]
    ensures t.span.Some? && !Caught(fn(call)) ==> t.span.value.actions == []
  {
    var tracer := GetTracer(explicit, env.contextTracer);
    if Usable(tracer) then RunInSpan(tracer.value, name, [], fn, env, call)
    else
      var response := fn(call);
      Traced(response, None)
  }

  /** The span-opening path as the code is written: `get_current_context()` runs
      before the span opens and outside the `try`, so without the backend its
      `NameError` escapes before the callee runs and no span exists. With the
      backend it is the corrected path. */
  function RunInSpanAsWritten<A, R>(tracer: Tracer, name: string, attributes: seq<Action>, fn: Call<A> -> Result<R, Exc>, env: Env, call: Call<A>): (t: Traced<R>)
    ensures env.otel ==> t == RunInSpan(tracer, name, attributes, fn, env, call)
    ensures !env.otel ==> t.span.None? && t.outcome.Err? && t.outcome.error.cls == "NameError"
  {
    match ResolveContextAsWritten(env)
    case Err(e) => Traced(Err(e), None)
    case Ok(_) => RunInSpan(tracer, name, attributes, fn, env, call)
  }

  /** One call of `trace(name, tracer)(fn)` as written: without a usable tracer
      the callee's own call; with one and no backend, a `NameError` instead of the
      callee's outcome and no span; with the backend, the same as `Trace`. */
  function TraceAsWritten<A, R>(name: string, explicit: Option<Tracer>, fn: Call<A> -> Result<R, Exc>, env: Env, call: Call<A>): (t: Traced<R>)
    ensures !Usable(GetTracer(explicit, env.contextTracer)) ==> t == Traced(fn(call), None)
    ensures Usable(GetTracer(explicit, env.contextTracer)) && !env.otel ==>
      t.span.None? && t.outcome.Err? && t.outcome.error.cls == "NameError"
    ensures env.otel ==> t == Trace(name, explicit, fn, env, call)
  {
    var tracer := GetTracer(explicit, env.contextTracer);
    if Usable(tracer) then RunInSpanAsWritten(tracer.value, name, [], fn, env, call)
    else Traced(fn(call), None)
  }

  /** One call of `trace_validator`'s closure as written: the pass-through closure
      is the callee; the traced one raises `NameError` without the backend, before
      the callee runs and before any span opens, and is `CallValidator` otherwise. */
  function CallValidatorAsWritten<A, R>(cfg: ValidatorConfig, w: Wrapper, render: A -> Option<string>, fn: Call<A> -> Result<R, Exc>, env: Env, call: Call<A>): (t: Traced<R>)
    ensures w.WithoutATrace? ==> t == Traced(fn(call), None)
    ensures w.WithTrace? && !env.otel ==> t.span.None? && t.outcome.Err? && t.outcome.error.cls == "NameError"
    ensures env.otel ==> t == CallValidator(cfg, w, render, fn, env, call)
  {
    match w
    case WithoutATrace => Traced(fn(call), None)
    case WithTrace(tracer) =>
      RunInSpanAsWritten(tracer, cfg.validatorName + ".validate", ValidatorAttributes(cfg, render, call), fn, env, call)
  }

  /** Where the code as written and the corrected wrappers part: a usable tracer
      without the backend. The corrected `trace` returns the callee's 42 inside a
      span; the code as written raises `NameError` and never runs the callee. */
  lemma AsWrittenTraceRaisesWithoutBackend(env: Env, call: Call<int>)
    requires !env.otel
    ensures Trace("my.op", Some(Tracer(7, true)), Answer, env, call).outcome == Ok(42)
    ensures Trace("my.op", Some(Tracer(7, true)), Answer, env, call).span.Some?
    ensures TraceAsWritten("my.op", Some(Tracer(7, true)), Answer, env, call)
      == Traced(Err(Exc("NameError", "name 'context' is not defined", true)), None)
  {
  }

  /** The asynchronous decorator behaves as the synchronous one on every call. */
  lemma AsyncTraceAgreesWithTrace<A, R>(name: string, explicit: Option<Tracer>, fn: Call<A> -> Result<R, Exc>, env: Env, call: Call<A>)
    ensures AsyncTrace(name, explicit, fn, env, call) == Trace(name, explicit, fn, env, call)
  {
  }

  /** `trace` decides per call and `trace_validator` per decoration: with the same
      stored tracer at decoration time and a different one at call time, the
      validator wrapper keeps its early choice while `trace` follows the new one. */
  lemma DecidedOnceVersusPerCall<A(!new), R>(cfg: ValidatorConfig, render: A -> Option<string>, fn: Call<A> -> Result<R, Exc>, env: Env, call: Call<A>)
    requires env.contextTracer == Some(Tracer(1, true))
    ensures TraceValidator(cfg, None, None, render, fn)(env, call).span.None?
    ensures Trace(cfg.validatorName + ".validate", None, fn, env, call).span.Some?
  {
  }

  /** The callee `trace("my.op")` wraps in its example: returns 42. */
  function Answer(call: Call<int>): Result<int, Exc> {
    Ok(42)
  }

  /** A callee that raises `ValueError("boom")`. */
  function Boom(call: Call<int>): Result<int, Exc> {
    Err(Exc("ValueError", "boom", true))
  }

  /** With no tracer configured, the wrapped `my.op` returns 42 and opens no span;
      with a usable one and a raising callee, the same exception comes back and the
      span holds a single error status carrying its message. */
  lemma TraceScenarios(env: Env, call: Call<int>)
    ensures env.contextTracer.None? ==> Trace("my.op", None, Answer, env, call) == Traced(Ok(42), None)
    ensures var t := Trace("my.op", Some(Tracer(7, true)), Boom, env, call);
      && t.outcome == Err(Exc("ValueError", "boom", true))
      && t.span == Some(SpanRecord(Tracer(7, true), "my.op", ResolveContext(env), [SetStatus(GetErrorCode(env.otel), "boom")]))
  {
  }
}

=== FILE: events.dfy ===
/** `trace_validator_result` and `trace_validation_result`: one span event per
    validator execution record. */
module Events {
  import opened Wrappers
  import opened Model
  import opened Classifier
  import opened Resolvers

  /** An event body carries no `None` value. */
  predicate NoNone(m: map<string, Attr>) {
    forall k :: k in m ==> m[k] != NoneValue
  }

  /** The dict comprehension that drops every `None`-valued entry. */
  function DropNone(m: map<string, Attr>): (r: map<string, Attr>)
    ensures NoNone(r)
    ensures forall k :: k in r <==> k in m && m[k] != NoneValue
    ensures forall k :: k in r ==> r[k] == m[k]
  {
    map k | k in m && m[k] != NoneValue :: m[k]
  }

  /** The outcome label: the result's `outcome` when it has one that is not `None`,
      "unknown" otherwise. */
  function OutcomeLabel(vr: ValidationResult): (name: string)
    ensures vr.WithOutcome? && vr.outcome.Some? ==> name == vr.outcome.value
    ensures !(vr.WithOutcome? && vr.outcome.Some?) ==> name == "unknown"
  {
    match vr
    case WithOutcome(Some(o)) => o
    case _ => "unknown"
  }

  function OptStr(o: Option<string>): Attr {
    match o
    case Some(s) => Str(s)
    case None => NoneValue
  }

  function OptInt(o: Option<int>): Attr {
    match o
    case Some(i) => Int(i)
    case None => NoneValue
  }

  /** A timestamp in ISO form, or `None` when it is unset. */
  function OptTime<I>(t: Option<I>, isoformat: I -> string): Attr {
    match t
    case Some(x) => Str(isoformat(x))
    case None => NoneValue
  }

  /** The keys the event body is built with before the caller's extras. */
  const BuiltinKeys: set<string> := {
    "validator_name", "attempt_number", "result", "result_type", "input", "output",
    "start_time", "end_time", "instance_id"
  }

  /** The event body before the caller's extras are merged and `None`s dropped:
      every built-in key, a timestamp or instance id that is unset standing as `None`. */
  function BuiltinFields<V(==), I>(log: ValidatorLog<V, I>, attempt: int, fmt: Formatters<V, I>): (body: map<string, Attr>)
    ensures body.Keys == BuiltinKeys
    ensures body["validator_name"] == Str(log.registeredName)
    ensures body["attempt_number"] == Int(attempt)
    ensures body["result"] == Str(OutcomeLabel(log.validationResult))
    ensures body["result_type"] == Str(ResultType(log.valueBefore, log.valueAfter, OutcomeLabel(log.validationResult)))
    ensures body["input"] == OptStr(fmt.toString(log.valueBefore))
    ensures body["output"] == OptStr(fmt.toString(log.valueAfter))
    ensures body["start_time"] == OptTime(log.startTime, fmt.isoformat)
    ensures body["end_time"] == OptTime(log.endTime, fmt.isoformat)
    ensures body["instance_id"] == OptInt(log.instanceId)
    ensures body["start_time"] != NoneValue <==> log.startTime.Some?
    ensures body["end_time"] != NoneValue <==> log.endTime.Some?
    ensures body["instance_id"] != NoneValue <==> log.instanceId.Some?
    ensures body["input"] != NoneValue <==> fmt.toString(log.valueBefore).Some?
    ensures body["output"] != NoneValue <==> fmt.toString(log.valueAfter).Some?
  {
    var result := OutcomeLabel(log.validationResult);
    map[
      "validator_name" := Str(log.registeredName),
      "attempt_number" := Int(attempt),
      "result" := Str(result),
      "result_type" := Str(ResultType(log.valueBefore, log.valueAfter, result)),
      "input" := OptStr(fmt.toString(log.valueBefore)),
      "output" := OptStr(fmt.toString(log.valueAfter)),
      "start_time" := OptTime(log.startTime, fmt.isoformat),
      "end_time" := OptTime(log.endTime, fmt.isoformat),
      "instance_id" := OptInt(log.instanceId)
    ]
  }

  /** `{**base, **extras}` followed by dropping every `None`: an extra wins over a
      built-in key, an extra set to `None` removes the key, and nothing `None` is left. */
  function MergeExtras(base: map<string, Attr>, extras: map<string, Attr>): (r: map<string, Attr>)
    ensures NoNone(r)
    ensures r.Keys <= base.Keys + extras.Keys
    ensures forall k :: k in extras ==> (k in r <==> extras[k] != NoneValue)
    ensures forall k :: k in extras && extras[k] != NoneValue ==> r[k] == extras[k]
    ensures forall k :: k in base && k !in extras ==> (k in r <==> base[k] != NoneValue)
    ensures forall k :: k in base && k !in extras && base[k] != NoneValue ==> r[k] == base[k]
  {
    DropNone(base + extras)
  }

  /** Keyword extras Python can bind to `**kwargs` of `trace_validator_result`: a
      keyword naming one of its own parameters is bound to that parameter instead
      (a second value for it is a `TypeError` at the call). */
  predicate BindableExtras(extras: map<string, Attr>) {
    "current_span" !in extras && "validator_log" !in extras && "attempt_number" !in extras
  }

  /** `trace_validator_result`: the single `add_event` call made for one record.
      The event is named after the registered name whatever the extras say; the
      attempt number cannot be overridden; the caller's other extras win over the
      built-in keys (an extra set to `None` removes the key); no value is `None`. */
  function TraceValidatorResult<V(==), I>(log: ValidatorLog<V, I>, attempt: int, fmt: Formatters<V, I>, extras: map<string, Attr>): (a: Action)
    requires BindableExtras(extras)
    ensures a.AddEvent?
    ensures "attempt_number" in a.attributes && a.attributes["attempt_number"] == Int(attempt)
    ensures a.name == log.registeredName + "_result"
    ensures NoNone(a.attributes)
    ensures a.attributes.Keys <= BuiltinKeys + extras.Keys
    ensures forall k :: k in extras ==> (k in a.attributes <==> extras[k] != NoneValue)
    ensures forall k :: k in extras && extras[k] != NoneValue ==> a.attributes[k] == extras[k]
  {
    AddEvent(log.registeredName + "_result", MergeExtras(BuiltinFields(log, attempt, fmt), extras))
  }

  /** The built-in fields of the event, where no extra overrides them: the
      validator name, the outcome (or "unknown"), its result type; the ISO start
      and end times, the instance id and the stringified before- and after-values,
      each present exactly when it is set. */
  lemma EventBuiltinFields<V, I>(log: ValidatorLog<V, I>, attempt: int, fmt: Formatters<V, I>, extras: map<string, Attr>)
    requires BindableExtras(extras)
    ensures var m := TraceValidatorResult(log, attempt, fmt, extras).attributes;
      && ("validator_name" !in extras ==> "validator_name" in m && m["validator_name"] == Str(log.registeredName))
      && ("result" !in extras ==> "result" in m && m["result"] == Str(OutcomeLabel(log.validationResult)))
      && ("result_type" !in extras ==>
           ("result_type" in m && m["result_type"] == Str(ResultType(log.valueBefore, log.valueAfter, OutcomeLabel(log.validationResult)))))
      && ("start_time" !in extras ==> ("start_time" in m <==> log.startTime.Some?))
      && ("start_time" !in extras && log.startTime.Some? ==> m["start_time"] == Str(fmt.isoformat(log.startTime.value)))
      && ("end_time" !in extras ==> ("end_time" in m <==> log.endTime.Some?))
      && ("end_time" !in extras && log.endTime.Some? ==> m["end_time"] == Str(fmt.isoformat(log.endTime.value)))
      && ("instance_id" !in extras ==> ("instance_id" in m <==> log.instanceId.Some?))
      && ("instance_id" !in extras && log.instanceId.Some? ==> m["instance_id"] == Int(log.instanceId.value))
      && ("input" !in extras ==> ("input" in m <==> fmt.toString(log.valueBefore).Some?))
      && ("input" !in extras && fmt.toString(log.valueBefore).Some? ==> m["input"] == Str(fmt.toString(log.valueBefore).value))
      && ("output" !in extras ==> ("output" in m <==> fmt.toString(log.valueAfter).Some?))
      && ("output" !in extras && fmt.toString(log.valueAfter).Some? ==> m["output"] == Str(fmt.toString(log.valueAfter).value))
  {
    var base := BuiltinFields(log, attempt, fmt);
    assert "validator_name" in base && "attempt_number" in base && "result" in base && "result_type" in base;
    assert "start_time" in base && "end_time" in base && "instance_id" in base && "input" in base && "output" in base;
  }

  /** What `current_span.add_event` raises on a span without that method. */
  const NoAddEvent := Exc("AttributeError", "object has no attribute 'add_event'", true)

  /** `trace_validation_result`: resolve the span; with none, emit nothing;
      otherwise one event per record, in order, with no extras, and nothing for
      nested record groups. A span the backend handed back without `add_event`
      makes the first record's emission raise `AttributeError`, so nothing is
      emitted and the error reaches the caller; so does a `BaseException` that
      escapes the span lookup. */
  method TraceValidationResult<V(==), I>(logs: seq<ValidatorLog<V, I>>, attempt: int, explicit: Option<SpanHandle>, env: Env, fmt: Formatters<V, I>)
    returns (span: Option<SpanHandle>, events: seq<Action>, raised: Option<Exc>)
    ensures GetSpan(explicit, env).Ok? ==> span == GetSpan(explicit, env).value
    ensures GetSpan(explicit, env).Err? ==> span.None? && events == [] && raised == Some(GetSpan(explicit, env).error)
    ensures span.None? && GetSpan(explicit, env).Ok? ==> events == [] && raised.None?
    ensures span.Some? && span.value.addsEvents ==> raised.None? && |events| == |logs|
    ensures span.Some? && span.value.addsEvents ==>
      forall i :: 0 <= i < |logs| ==> events[i] == TraceValidatorResult(logs[i], attempt, fmt, map[])
    ensures span.Some? && !span.value.addsEvents ==> events == [] && (raised.Some? <==> |logs| > 0)
    ensures raised.Some? && GetSpan(explicit, env).Ok? ==> raised.value == NoAddEvent
  {
    var resolved := GetSpan(explicit, env);
    span := None;
    raised := None;
    events := [];
    if resolved.Err? {
      raised := Some(resolved.error);
    } else {
      span := resolved.value;
    }
    if span.Some? {
      if span.value.addsEvents {
        events := EmitAll(logs, (log: ValidatorLog<V, I>) => TraceValidatorResult(log, attempt, fmt, map[]));
      } else if |logs| > 0 {
        raised := Some(NoAddEvent);
      }
    }
  }

  /** The loop of `trace_validation_result`: one emission per record, in order. */
  method EmitAll<L>(logs: seq<L>, emit: L -> Action) returns (events: seq<Action>)
    ensures |events| == |logs|
    ensures forall i :: 0 <= i < |logs| ==> events[i] == emit(logs[i])
  {
    events := [];
    for i := 0 to |logs|
      invariant |events| == i
      invariant forall j :: 0 <= j < i ==> events[j] == emit(logs[j])
    {
      events := events + [emit(logs[i])];
    }
  }

  /** Every event the aggregator emits for record `i` is named after that record
      and carries no `None`, and the emitted names follow the records' order. */
  lemma AggregatedEventsFollowRecords<V, I>(logs: seq<ValidatorLog<V, I>>, attempt: int, fmt: Formatters<V, I>, events: seq<Action>)
    requires |events| == |logs|
    requires forall i :: 0 <= i < |logs| ==> events[i] == TraceValidatorResult(logs[i], attempt, fmt, map[])
    ensures forall i :: 0 <= i < |logs| ==> events[i].AddEvent? && events[i].name == logs[i].registeredName + "_result"
    ensures forall i :: 0 <= i < |logs| ==> NoNone(events[i].attributes)
    ensures forall i :: 0 <= i < |logs| ==> "result" in events[i].attributes
  {
  }

  /** A record of "length_check" that passed with "abc" unchanged and no
      timestamps, on attempt 1. */
  function LengthCheckLog(): ValidatorLog<string, int> {
    ValidatorLog("length_check", Plain("abc"), WithOutcome(Some("pass")), Plain("abc"), None, None, None)
  }

  /** The event for that record: named "length_check_result", result and result
      type "pass", attempt number 1, no timestamp keys. */
  lemma LengthCheckScenario(fmt: Formatters<string, int>)
    ensures var a := TraceValidatorResult(LengthCheckLog(), 1, fmt, map[]);
      && a.name == "length_check_result"
      && a.attributes["result"] == Str("pass")
      && a.attributes["result_type"] == Str("pass")
      && a.attributes["attempt_number"] == Int(1)
      && "start_time" !in a.attributes
      && "end_time" !in a.attributes
  {
  }

  /** The same record with a changed after-value is labelled "fix". */
  lemma LengthCheckFixScenario(fmt: Formatters<string, int>)
    ensures var fixed := LengthCheckLog().(valueAfter := Plain("abd"));
      TraceValidatorResult(fixed, 1, fmt, map[]).attributes["result_type"] == Str("fix")
  {
  }
}

=== FILE: model.dfy ===
/** The entities of the telemetry layer in guardrails/utils/telemetry_utils.py.
    Tracers, spans and contexts are opaque handles owned by the tracing backend;
    the layer only reads them, and everything it does to a span is recorded as an
    append-only log of `Action`s. */
module Model {
  import opened Wrappers

  /** A value before or after validation. `Filter`, `Refrain` and `ReAsk` are the
      three sentinel classes a validator may put in place of a value; a `ReAsk`
      carries the name of its runtime class, because guardrails subclasses it
      (`FieldReAsk`, `SkeletonReAsk`, `NonParseableReAsk`) and the classifier
      reads `__class__.__name__`. Any other value is `Plain`. */
  datatype Value<V> = Filter | Refrain | ReAsk(className: string) | Plain(v: V) {

    predicate IsSentinel() {
      !Plain?
    }

    /** The runtime class name of a sentinel. */
    function ClassName(): string
      requires IsSentinel()
    {
      match this
      case Filter => "Filter"
      case Refrain => "Refrain"
      case ReAsk(n) => n
    }
  }

  /** A validator's result object: either one without an `outcome` attribute
      (`None`, say) or one whose `outcome` may itself be `None`. */
  datatype ValidationResult = NoOutcome | WithOutcome(outcome: Option<string>)

  /** One validator execution record (a `ValidatorLogs` entry); timestamps are of
      the abstract type `I`. */
  datatype ValidatorLog<V, I> = ValidatorLog(
    registeredName: string,
    valueBefore: Value<V>,
    validationResult: ValidationResult,
    valueAfter: Value<V>,
    startTime: Option<I>,
    endTime: Option<I>,
    instanceId: Option<int>)

  /** The stringifier `to_string` (which yields `None` when `str` fails) and
      `datetime.isoformat`, both outside the model. */
  datatype Formatters<!V, !I> = Formatters(toString: Value<V> -> Option<string>, isoformat: I -> string)

  /** A span attribute or event-body value; `NoneValue` is Python's `None`. */
  datatype Attr = Str(s: string) | Int(i: int) | NoneValue

  /** A status code: the backend's `StatusCode.ERROR`, or a plain integer. */
  datatype StatusCode = OtelError | Code(n: int)

  /** What the layer does to a span. */
  datatype Action =
    | AddEvent(name: string, attributes: map<string, Attr>)
    | SetAttribute(key: string, value: Attr)
    | SetStatus(code: StatusCode, description: string)

  /** A tracer handle; `startsSpans` says whether it has `start_as_current_span`. */
  datatype Tracer = Tracer(id: nat, startsSpans: bool)

  /** A span handle; `addsEvents` says whether it has `add_event`. */
  datatype SpanHandle = SpanHandle(id: nat, addsEvents: bool)

  /** A propagation context. The backend's context is a mapping, so an empty one
      is falsy in Python. */
  datatype TracerContext = TracerContext(entries: map<string, nat>)

  /** The process-wide state the layer reads:
      - `otel`: whether the `opentelemetry` package could be imported;
      - `contextTracer`: the tracer stored by guardrails (`get_context_tracer()`);
      - `otelContext`: the backend's current context (`context.get_current()`);
      - `storedContext`: the fallback context stored by guardrails (`get_tracer_context()`);
      - `currentSpan`: the backend's `trace.get_current_span` under a context, which
        returns a span or raises (a stored context it cannot read, say). */
  datatype Env = Env(
    otel: bool,
    contextTracer: Option<Tracer>,
    otelContext: TracerContext,
    storedContext: Option<TracerContext>,
    currentSpan: Option<TracerContext> -> Result<SpanHandle, Exc>)

  /** A raised exception. `isException` is false for the `BaseException`s that are
      not `Exception`s (`KeyboardInterrupt`, `asyncio.CancelledError`, ...), which
      an `except Exception` clause does not catch. `message` is `str(e)`. */
  datatype Exc = Exc(cls: string, message: string, isException: bool)

  /** Positional and keyword arguments of a call. */
  datatype Call<A> = Call(args: seq<A>, kwargs: map<string, A>)

  /** A span opened by a decorator: which tracer opened it, its name, the context
      it was opened under, and what was done to it, in order. */
  datatype SpanRecord = SpanRecord(tracer: Tracer, name: string, parent: Option<TracerContext>, actions: seq<Action>)

  /** What a decorated call amounts to: the callee's return or raise as the caller
      sees it, and the span opened around it, if any. */
  datatype Traced<R> = Traced(outcome: Result<R, Exc>, span: Option<SpanRecord>)

  /** The callee raised something an `except Exception` clause catches. */
  predicate Caught<R>(outcome: Result<R, Exc>) {
    outcome.Err? && outcome.error.isException
  }

  /** Number of `set_status` calls in an action log. */
  function StatusCount(actions: seq<Action>): nat {
    if actions == [] then 0
    else (if actions[0].SetStatus? then 1 else 0) + StatusCount(actions[1..])
  }

  lemma {:induction false} StatusCountAppend(a: seq<Action>, b: seq<Action>)
    ensures StatusCount(a + b) == StatusCount(a) + StatusCount(b)
  {
    if a == [] {
      assert a + b == b;
    } else {
      assert (a + b)[1..] == a[1..] + b;
      StatusCountAppend(a[1..], b);
    }
  }

  /** A log holding no `set_status` has status count zero. */
  lemma {:induction false} StatusCountNone(a: seq<Action>)
    requires forall i :: 0 <= i < |a| ==> !a[i].SetStatus?
    ensures StatusCount(a) == 0
  {
    if a != [] {
      StatusCountNone(a[1..]);
    }
  }
}

=== FILE: resolvers.dfy ===
/** `get_tracer`, `get_current_context`, `get_span` and `get_error_code`: how the
    layer finds its tracer, context and span, and which status code means error. */
module Resolvers {
  import opened Wrappers
  import opened Model

  /** `get_tracer`: an explicit tracer wins; otherwise the one guardrails stored. */
  function GetTracer(explicit: Option<Tracer>, contextTracer: Option<Tracer>): (t: Option<Tracer>)
    ensures explicit.Some? ==> t == explicit
    ensures explicit.None? ==> t == contextTracer
  {
    if explicit.Some? then explicit else contextTracer
  }

  /** A resolved tracer the decorators can open spans with: present, and with
      `start_as_current_span`. */
  predicate Usable(t: Option<Tracer>) {
    t.Some? && t.value.startsSpans
  }

  /** Python truthiness of an optional context: present and non-empty. */
  predicate Truthy(c: Option<TracerContext>) {
    c.Some? && |c.value.entries| > 0
  }

  /** `a or b` on optional contexts: `a` when it is truthy, `b` otherwise, even
      when `b` is absent or empty. */
  function Or(a: Option<TracerContext>, b: Option<TracerContext>): (r: Option<TracerContext>)
    ensures Truthy(a) ==> r == a
    ensures !Truthy(a) ==> r == b
    ensures Truthy(r) ==> Truthy(a) || r == b
  {
    if Truthy(a) then a else b
  }

  /** `get_current_context` as written: when the `opentelemetry` import failed the
      module name `context` was never bound, so evaluating `context is not None`
      raises `NameError` instead of treating the context as absent. */
  function ResolveContextAsWritten(env: Env): (r: Result<Option<TracerContext>, Exc>)
    ensures r.Err? <==> !env.otel
    ensures r.Err? ==> r.error.cls == "NameError" && r.error.isException
    ensures r.Ok? ==> Truthy(Some(env.otelContext)) ==> r.value == Some(env.otelContext)
    ensures r.Ok? ==> !Truthy(Some(env.otelContext)) ==> r.value == env.storedContext
  {
    if !env.otel then Err(Exc("NameError", "name 'context' is not defined", true))
    else Ok(Or(Some(env.otelContext), env.storedContext))
  }

  /** `get_current_context` as intended: the backend's context when the backend is
      there and the context is non-empty, the stored fallback otherwise. Never fails. */
  function ResolveContext(env: Env): (ctx: Option<TracerContext>)
    ensures env.otel && |env.otelContext.entries| > 0 ==> ctx == Some(env.otelContext)
    ensures !(env.otel && |env.otelContext.entries| > 0) ==> ctx == env.storedContext
  {
    var ambient := if env.otel then Some(env.otelContext) else None;
    Or(ambient, env.storedContext)
  }

  /** The corrected resolver agrees with the code wherever the code does not raise,
      and where it raises it falls through to the stored context. */
  lemma ResolveContextCorrectsOnlyTheRaise(env: Env)
    ensures env.otel ==> ResolveContextAsWritten(env) == Ok(ResolveContext(env))
    ensures !env.otel ==> ResolveContextAsWritten(env).Err? && ResolveContext(env) == env.storedContext
  {
  }

  /** A concrete environment in which the code as written raises: no backend, and a
      stored context that the intended fall-through would have returned. */
  lemma ContextLookupRaisesWithoutBackend()
    ensures var env := Env(false, None, TracerContext(map[]), Some(TracerContext(map["trace" := 1])),
                           (c: Option<TracerContext>) => Ok(SpanHandle(0, true)));
      && ResolveContextAsWritten(env) == Err(Exc("NameError", "name 'context' is not defined", true))
      && ResolveContext(env) == Some(TracerContext(map["trace" := 1]))
  {
  }

  /** `get_span`: an explicit span that has `add_event` is returned as it is;
      otherwise the backend's current span under the resolved context. A failure
      on the way that is an `Exception` (the backend cannot be imported, or the
      lookup raises one) is swallowed and reported as `None`; any other
      `BaseException` from the lookup escapes to the caller. The backend's span is
      returned whether or not it has `add_event`. */
  function GetSpan(explicit: Option<SpanHandle>, env: Env): (r: Result<Option<SpanHandle>, Exc>)
    ensures explicit.Some? && explicit.value.addsEvents ==> r == Ok(explicit)
    ensures !(explicit.Some? && explicit.value.addsEvents) ==>
      (r.Ok? && r.value.Some? <==> env.otel && env.currentSpan(ResolveContext(env)).Ok?)
    ensures !(explicit.Some? && explicit.value.addsEvents) && r.Ok? && r.value.Some? ==>
      env.currentSpan(ResolveContext(env)) == Ok(r.value.value)
    ensures r.Err? <==>
      (!(explicit.Some? && explicit.value.addsEvents) && env.otel
       && env.currentSpan(ResolveContext(env)).Err? && !env.currentSpan(ResolveContext(env)).error.isException)
    ensures r.Err? ==> env.currentSpan(ResolveContext(env)) == Err(r.error)
  {
    if explicit.Some? && explicit.value.addsEvents then Ok(explicit)
    else if !env.otel then Ok(None)
    else
      match env.currentSpan(ResolveContext(env))
      case Ok(span) => Ok(Some(span))
      case Err(e) => if e.isException then Ok(None) else Err(e)
  }

  /** Both failures `except Exception` catches, a missing backend and a
      `get_current_span` raising an `Exception`, yield `None` when no usable
      explicit span is given. */
  lemma LookupFailureYieldsNone(explicit: Option<SpanHandle>, env: Env)
    requires !(explicit.Some? && explicit.value.addsEvents)
    requires !env.otel || (env.currentSpan(ResolveContext(env)).Err? && env.currentSpan(ResolveContext(env)).error.isException)
    ensures GetSpan(explicit, env) == Ok(None)
  {
  }

  /** A `BaseException` that is not an `Exception` (`KeyboardInterrupt`) raised by
      the backend's lookup is not swallowed: the same object reaches the caller. */
  lemma BaseExceptionEscapesLookup(explicit: Option<SpanHandle>, env: Env, e: Exc)
    requires !(explicit.Some? && explicit.value.addsEvents) && env.otel
    requires env.currentSpan(ResolveContext(env)) == Err(e) && !e.isException
    ensures GetSpan(explicit, env) == Err(e)
  {
  }

  /** An explicit span with `add_event` makes the result independent of the whole
      process-wide state. */
  lemma ExplicitSpanIgnoresEnvironment(explicit: Option<SpanHandle>, e1: Env, e2: Env)
    requires explicit.Some? && explicit.value.addsEvents
    ensures GetSpan(explicit, e1) == GetSpan(explicit, e2) == Ok(explicit)
  {
  }

  /** The integer an error status stands for; `StatusCode.ERROR` is 2 in the
      OpenTelemetry Python API. */
  function StatusValue(c: StatusCode): int {
    match c
    case OtelError => 2
    case Code(n) => n
  }

  /** `get_error_code`: the backend's `StatusCode.ERROR` when it can be imported,
      the literal 2 otherwise; either way the error status 2. */
  function GetErrorCode(otel: bool): (c: StatusCode)
    ensures StatusValue(c) == 2
    ensures c.OtelError? <==> otel
  {
    if otel then OtelError else Code(2)
  }
}

=== FILE: text.dfy ===
/** The little string handling the telemetry layer relies on: Python's `str.lower`
    on the ASCII class names it is applied to, and `str` of an integer. */
module Text {

  predicate IsUpper(c: char) {
    'A' <= c <= 'Z'
  }

  /** Lower-cases one ASCII letter; every other character is left alone. */
  function LowerChar(c: char): (d: char)
    ensures !IsUpper(d)
    ensures !IsUpper(c) ==> d == c
    ensures IsUpper(c) ==> d as int == c as int + 32
  {
    if IsUpper(c) then (c as int + 32) as char else c
  }

  /** `s.lower()` restricted to ASCII: the same length, every character lower-cased. */
  function Lower(s: string): (r: string)
    ensures |r| == |s|
    ensures forall i :: 0 <= i < |s| ==> r[i] == LowerChar(s[i])
  {
    if s == [] then [] else [LowerChar(s[0])] + Lower(s[1..])
  }

  function DigitChar(d: nat): char
    requires d < 10
  {
    "0123456789"[d]
  }

  /** Non-empty text made of decimal digits only. */
  predicate IsDecimal(s: string) {
    |s| > 0 && forall i :: 0 <= i < |s| ==> '0' <= s[i] <= '9'
  }

  /** The number a string of decimal digits denotes, most significant first. */
  function ReadDecimal(s: string): nat
    requires forall i :: 0 <= i < |s| ==> '0' <= s[i] <= '9'
  {
    if s == [] then 0 else ReadDecimal(s[..|s| - 1]) * 10 + (s[|s| - 1] as int - '0' as int)
  }

  /** Decimal digits of a natural number, most significant first; reading them
      back gives the number. */
  function NatToString(n: nat): (s: string)
    ensures IsDecimal(s)
    ensures ReadDecimal(s) == n
    ensures s[0] == '0' ==> s == "0"
  {
    if n < 10 then [DigitChar(n)] else NatToString(n / 10) + [DigitChar(n % 10)]
  }

  /** Python's `int()` of the text `str` produces: digits, optionally after a
      minus sign. */
  function ReadInt(s: string): int
    requires IsDecimal(s) || (|s| > 1 && s[0] == '-' && IsDecimal(s[1..]))
  {
    if s[0] == '-' then -(ReadDecimal(s[1..]) as int) else ReadDecimal(s)
  }

  /** `str(n)` for a Python int: a minus sign exactly for a negative number,
      then the decimal digits of its magnitude; reading the text back gives `n`. */
  function IntToString(n: int): (s: string)
    ensures n >= 0 ==> IsDecimal(s)
    ensures n < 0 ==> |s| > 1 && s[0] == '-' && IsDecimal(s[1..]) && s[1] != '0'
    ensures n >= 0 && s[0] == '0' ==> s == "0"
    ensures ReadInt(s) == n
  {
    if n < 0 then
      var digits := NatToString(-n);
      assert ("-" + digits)[1..] == digits;
      "-" + digits
    else NatToString(n)
  }
}

=== FILE: wrappers.dfy ===
/** Option and Result, the two failure-aware wrappers the model is written with:
    `Option` stands for Python's `None`-or-value, `Result` for return-or-raise. */
module Wrappers {

  datatype Option<+T> = None | Some(value: T)

  /** A call that either returned a value (`Ok`) or raised an exception (`Err`). */
  datatype Result<+R, +E> = Ok(value: R) | Err(error: E)
}
